=== FILE: README.md ===
# SpringToDo task service — a Dafny model

SpringToDo is a CRUD REST service for tasks (title, description, status, two timestamps)
stored in one PostgreSQL table and fronted by a Redis cache with two regions: `"tasks"`,
keyed by task id, and `"all-tasks"`, keyed by the text `"pagination" + offset + ":" + limit`.
This project models the four pieces that carry its logic:

- the DAO `TaskDaoImpl` (`TaskStore`): the table as a map from id to row plus the identity
  counter, with page read, find, insert, sparse-patch update and delete, each with its exact
  error outcome;
- the update validator `TaskValidator` (`TaskValidator`), including `String.isBlank` and
  `Character.isWhitespace`;
- the service `TaskServiceImpl` (`TaskService`): its Spring cache annotations become explicit
  transitions on the two regions that apply only on normal return, as Spring does by default;
- the controller advice `GlobalExceptionHandler` (`ExceptionHandler`): Spring's choice of the
  handler declared for the nearest superclass, and the status and message of each response.

Supporting modules: `Optional` (nullable values), `Failures` (the exceptions as data, and
`Result`/`Step`), `Decimal` (how Java renders a `long` inside a string), `Tasks` (entity,
request and response shapes, field-for-field mappers, create-request constraints), `CacheKey`
(the "all-tasks" key text and its parser), `ServiceInvariant` (what the caches promise about
the table), `ServiceProperties` (read-after-write and cache-hit facts) and `HttpOutcomes`
(end-to-end error responses).

Every operation is a pure function from a state to a `Step(state, result)`; a Java `throw`
is an `Err` carrying a `Failure`. Clock readings are parameters. The table has no ORDER BY
on its page query, so a page read takes the database's scan order `scan` as a parameter,
constrained only to list every stored id once; the proofs about pages are slice and length
facts that hold for every such order. The "all-tasks" region is keyed by the (offset, limit)
pair; `CacheKey.KeyTextInjective` shows that the key text determines the pair, so this loses
nothing. Cached values are views, which have no null value, so nothing null is ever cached,
as `disableCachingNullValues` in CacheConfig.java requires.

The model keeps the source's quirks as behaviour:

- `update` returns the patch it was given, not the merged row, and the service caches that
  patch-shaped view (no id, no timestamps) under the id; a later read by id returns it
  (`ServiceProperties.UpdateThenGetReturnsPatchView`).
- The service stamps `updatedAt` on the task it fetched and then drops it, so an update
  never changes the stored `updated_at` (`ServiceProperties.UpdateIgnoresClock`).
- The validator accepts a patch with every field absent; the store then refuses it with
  "No fields to update" (`ServiceProperties.EmptyPatchRefusedByStore`).
- Deleting a missing id raises a plain `RuntimeException`, which the advice turns into a 500
  (`HttpOutcomes.DeleteMissingIsServerError`).
- A create reads the clock twice, once for `createdAt` and once for `updatedAt`, so the two
  are separate parameters and need not be equal (`TaskService.CreateTask`).
- The validator's status check can never fail: every `Status` value is one of
  `Status.values()` (`TaskValidator.StatusNeverRejected`).
- The table keeps timestamps at microsecond precision, so a task read back after a create
  carries its clock readings rounded to the microsecond (`TaskStore.Stored`,
  `ServiceProperties.CreateThenGet`).


## Model

| member | source | states |
|---|---|---|
| TaskStore.FindPage | src/main/java/com/emobile/springtodo/dao/TaskDaoImpl.java:31-37 | A page has at most `limit` tasks; it is empty once `offset` passes the table size, not an error; its i-th task is the row at position `offset + i` of the scan order |
| TaskStore.PagesConcatenate | src/main/java/com/emobile/springtodo/dao/TaskDaoImpl.java:31-37 | Under one scan order, the page (o, a) followed by the page (o + a, b) is exactly the page (o, a + b): pages tile the table without gaps or overlaps |
| TaskStore.ScanOrderExists | src/main/java/com/emobile/springtodo/dao/TaskDaoImpl.java:31-37 | Every table has a scan order listing each stored id once, so the page query's precondition never excludes a table |
| TaskStore.FullPageListsEveryRow | src/main/java/com/emobile/springtodo/dao/TaskDaoImpl.java:31-37 | A page from offset 0 whose limit covers the table contains every stored task |
| TaskStore.FindById | src/main/java/com/emobile/springtodo/dao/TaskDaoImpl.java:39-47 | Succeeds exactly when the id is stored, returning that row with its id; otherwise fails with not-found "Task with id <id> not found" |
| TaskStore.Save | src/main/java/com/emobile/springtodo/dao/TaskDaoImpl.java:59-89 | Refuses a task without title or status with "Task data is invalid" and leaves the table alone; otherwise, on a table whose identity counter is unused, adds exactly one row under the counter's id, leaves every other row as it was, advances the counter, returns the input with only its id filled in, and a find by the new id returns that task with both timestamps rounded to the column's precision |
| TaskStore.StoredRounds | src/main/java/com/emobile/springtodo/dao/TaskDaoImpl.java:72-73 | A clock reading written to a timestamp column is kept as a whole number of microseconds, at most half a microsecond from the reading, and storing it again changes nothing |
| TaskStore.AsStored | src/main/java/com/emobile/springtodo/dao/TaskDaoImpl.java:72-73 | The task as it reads back differs from the task written only in its two timestamps, each rounded to the column's precision |
| TaskStore.Update | src/main/java/com/emobile/springtodo/dao/TaskDaoImpl.java:91-137 | An all-absent patch fails with "No fields to update" before the table is consulted; a missing id fails with not-found and changes nothing; on success exactly the present patch fields of that row change, created/updated times and all other rows stay, and the patch itself is returned |
| TaskStore.DeleteById | src/main/java/com/emobile/springtodo/dao/TaskDaoImpl.java:49-57 | Succeeds exactly when the id is stored, removing only that row; otherwise fails with the generic error "Failed to delete task by id <id>", not not-found, and changes nothing |
| Tasks.StatusColumnRoundTrip | src/main/java/com/emobile/springtodo/dao/TaskDaoImpl.java:71 | A status written to the table by its name reads back as the same status, and every status is one of `Status.values()` |
| Tasks.CreateViolations | src/main/java/com/emobile/springtodo/dto/CreateTaskDTO.java:16-23 | A create request has no violations exactly when its title is present and non-empty and its status present; each failing field is reported with its constraint message |
| Decimal.IntTextInjective | src/main/java/com/emobile/springtodo/dao/TaskDaoImpl.java:45 | Distinct ids render as distinct decimal texts, so the not-found message identifies its id |
| CacheKey.KeyTextRoundTrip | src/main/java/com/emobile/springtodo/service/TaskServiceImpl.java:83 | The "all-tasks" key text parses back to the (offset, limit) pair it was built from |
| CacheKey.KeyTextInjective | src/main/java/com/emobile/springtodo/service/TaskServiceImpl.java:83 | Two page requests share an "all-tasks" entry exactly when their (offset, limit) pairs are equal |
| TaskValidator.BlankMeansAllWhitespace | src/main/java/com/emobile/springtodo/util/TaskValidator.java:13-18 | A string is blank exactly when every character is Java whitespace, so the empty string is blank |
| TaskValidator.Validate | src/main/java/com/emobile/springtodo/util/TaskValidator.java:12-25 | Accepts exactly the patches with no present blank title and no present blank description; a blank title reports "Title cannot be blank" even when the description is blank too; otherwise a blank description reports "Description cannot be blank" |
| TaskValidator.AcceptsEmptyPatch | src/main/java/com/emobile/springtodo/util/TaskValidator.java:12-25 | A patch with every field absent passes |
| TaskValidator.StatusNeverRejected | src/main/java/com/emobile/springtodo/util/TaskValidator.java:19-24 | Adding any status to a patch never changes the verdict: the status check cannot fail |
| TaskValidator.WhitespaceTitleRejected | src/main/java/com/emobile/springtodo/util/TaskValidator.java:13-15 | A whitespace-only title is rejected like an empty one |
| TaskService.CreateTask | src/main/java/com/emobile/springtodo/service/TaskServiceImpl.java:36-51 | Succeeds exactly when title and status are present; the view carries the new id, the input fields and the two clock readings, and the stored row carries the same fields with the readings rounded to microseconds; on success "all-tasks" is empty and "tasks" loses only the entry, if any, under the new id; on failure nothing changes |
| TaskService.UpdateTask | src/main/java/com/emobile/springtodo/service/TaskServiceImpl.java:53-73 | A missing id fails with not-found before validation; a validation failure writes nothing; an all-absent patch is then refused by the store; on success the patch-shaped view (no id, no timestamps) is cached under the id, "all-tasks" is empty and the stored updated time is unchanged; every failure leaves the state as it was |
| TaskService.GetTaskById | src/main/java/com/emobile/springtodo/service/TaskServiceImpl.java:75-80 | A "tasks" hit returns the cached view and changes nothing; a miss on a missing id fails with not-found and caches nothing; a miss on a stored id returns its view and caches only that entry |
| TaskService.GetTasks | src/main/java/com/emobile/springtodo/service/TaskServiceImpl.java:82-89 | A hit returns the cached page; a miss with offset < 0 or limit <= 0 fails with the pagination message without reading the table; a good miss returns at most `limit` views read from the table and caches only that entry |
| TaskService.DeleteTask | src/main/java/com/emobile/springtodo/service/TaskServiceImpl.java:91-99 | Succeeds exactly when the id is stored; on success "tasks" loses only that id and "all-tasks" is empty; on failure the generic error propagates and neither region changes |
| TaskService.CreateRequest | src/main/java/com/emobile/springtodo/controller/TaskRestController.java:38-42 | A create body failing its constraints is refused with its field errors before the service runs and changes nothing; a valid one is exactly the service's create, which always succeeds with the new id, the body's fields and the two clock readings, empties "all-tasks" and adds exactly the new row |
| ServiceInvariant.InitialInv | src/main/java/com/emobile/springtodo/config/CacheConfig.java:50-55 | The empty table with both cache regions empty satisfies the cache invariant |
| ServiceInvariant.ColdCacheInv | src/main/java/com/emobile/springtodo/config/CacheConfig.java:50-55 | Empty cache regions over any table whose identity counter is unused satisfy the cache invariant, so starting with empty caches over an existing table is a coherent state |
| ServiceInvariant.ExpiryPreservesInv | src/main/java/com/emobile/springtodo/config/CacheConfig.java:34-48 | Removing any entries from either region, as the one-hour expiry does, keeps the cache invariant |
| ServiceInvariant.CreatePreservesInv | src/main/java/com/emobile/springtodo/service/TaskServiceImpl.java:36-51 | A create keeps every cached view consistent with its row and every cached page a page of the current table |
| ServiceInvariant.UpdatePreservesInv | src/main/java/com/emobile/springtodo/service/TaskServiceImpl.java:53-73 | An update keeps the caches consistent with the table even though it caches a patch-shaped view |
| ServiceInvariant.GetTaskByIdPreservesInv | src/main/java/com/emobile/springtodo/service/TaskServiceImpl.java:75-80 | A read by id keeps the caches consistent with the table |
| ServiceInvariant.GetTasksPreservesInv | src/main/java/com/emobile/springtodo/service/TaskServiceImpl.java:82-89 | A page read keeps the caches consistent with the table; the page it caches is a page of the current table |
| ServiceInvariant.DeletePreservesInv | src/main/java/com/emobile/springtodo/service/TaskServiceImpl.java:91-99 | A delete keeps the caches consistent with the table |
| ServiceInvariant.BadPageAlwaysRejected | src/main/java/com/emobile/springtodo/service/TaskServiceImpl.java:82-87 | In every reachable state a page request with offset < 0 or limit <= 0 fails, because such a key is never cached |
| ServiceInvariant.ListedPageIsCurrent | src/main/java/com/emobile/springtodo/service/TaskServiceImpl.java:82-89 | In every reachable state each page `getTasks` returns, cached or not, is a page of the current table: no stale list survives a write |
| ServiceInvariant.SkippedPutIncoherent | src/main/java/com/emobile/springtodo/service/TaskServiceImpl.java:53-73 | For every state and every update that changes a row whose full view is cached, leaving "tasks" unchanged instead of putting the new view yields a state that breaks the cache invariant: the invariant detects the stale view a skipped cache write would leave |
| ServiceInvariant.ReadViewAgrees | src/main/java/com/emobile/springtodo/service/TaskServiceImpl.java:75-80 | In every reachable state a view returned by id is never stale: a view carrying an id is exactly the stored row's current view, and a patch view (no id, no timestamps) agrees with the row on every field it carries |
| ServiceProperties.CreateThenGet | src/main/java/com/emobile/springtodo/service/TaskServiceImpl.java:36-51 | Reading a task right after creating it returns the view the create returned, except that both timestamps come back rounded to the column's microsecond precision |
| ServiceProperties.UpdateThenGetReturnsPatchView | src/main/java/com/emobile/springtodo/service/TaskServiceImpl.java:55-72 | After an update a read by id returns the cached patch view, not the merged row |
| ServiceProperties.UpdateIgnoresClock | src/main/java/com/emobile/springtodo/service/TaskServiceImpl.java:67 | The update's clock reading affects neither the result nor any state |
| ServiceProperties.StatusOnlyUpdate | src/main/java/com/emobile/springtodo/dao/TaskDaoImpl.java:104-120 | An update carrying only a status changes only that row's status column |
| ServiceProperties.GetTaskByIdTwice | src/main/java/com/emobile/springtodo/service/TaskServiceImpl.java:75-80 | Two reads of one id in a row return the same outcome and the second changes nothing |
| ServiceProperties.TaskHitIgnoresStore | src/main/java/com/emobile/springtodo/service/TaskServiceImpl.java:76 | A "tasks" hit gives the same answer whatever the table holds |
| ServiceProperties.PageHitIgnoresStore | src/main/java/com/emobile/springtodo/service/TaskServiceImpl.java:83 | An "all-tasks" hit gives the same answer whatever the table and scan order |
| ServiceProperties.BadPageIgnoresStore | src/main/java/com/emobile/springtodo/service/TaskServiceImpl.java:85-87 | A bad page request that misses the cache fails the same way whatever the table holds |
| ServiceProperties.DeleteThenGet | src/main/java/com/emobile/springtodo/service/TaskServiceImpl.java:93-98 | After a delete the task cannot be read, cached view included |
| ServiceProperties.DefaultPageAccepted | src/main/java/com/emobile/springtodo/controller/TaskRestController.java:26-27 | The default page offset 0, limit 10 always passes the parameter check |
| ServiceProperties.EmptyPatchRefusedByStore | src/main/java/com/emobile/springtodo/dao/TaskDaoImpl.java:122-124 | An all-absent patch on an existing task passes the validator but is refused by the store, leaving the state unchanged |
| ExceptionHandler.ResolveIsNearest | src/main/java/com/emobile/springtodo/handler/GlobalExceptionHandler.java:22-61 | The chosen handler is declared for the thrown class or a superclass of it, and no handler covering the class is declared for a nearer superclass |
| ExceptionHandler.ResolvedHandlers | src/main/java/com/emobile/springtodo/handler/GlobalExceptionHandler.java:22-61 | Not-found, validation, illegal-argument and unreadable-body exceptions reach their own handlers; plain runtime exceptions reach the runtime handler and checked ones the fallback |
| ExceptionHandler.SpecificHandlerWins | src/main/java/com/emobile/springtodo/handler/GlobalExceptionHandler.java:22-55 | Not-found, illegal-argument and unreadable-body exceptions are runtime exceptions, yet none reaches the generic runtime handler |
| ExceptionHandler.HandleOutcomes | src/main/java/com/emobile/springtodo/handler/GlobalExceptionHandler.java:22-69 | Not-found is 404 with its message; illegal-argument 400 with its message; field validation 400 "Validation failed" with the field map; unreadable body 400 "Invalid request body: " plus the invalid field or the raw message; other runtime 500 "Internal server error: " plus the message; checked 500 "An unexpected error occurred"; only field validation carries a field map |
| ExceptionHandler.FieldErrorMapKeys | src/main/java/com/emobile/springtodo/handler/GlobalExceptionHandler.java:31-34 | The field map has exactly the reported fields as keys |
| ExceptionHandler.FieldErrorMapLastWins | src/main/java/com/emobile/springtodo/handler/GlobalExceptionHandler.java:31-34 | For a field reported more than once, the map holds the message of the last report |
| HttpOutcomes.DeleteMissingIsServerError | src/main/java/com/emobile/springtodo/dao/TaskDaoImpl.java:53-56 | Deleting a missing id ends in 500 "Internal server error: Failed to delete task by id <id>" |
| HttpOutcomes.GetMissingIsNotFound | src/main/java/com/emobile/springtodo/dao/TaskDaoImpl.java:44-46 | Reading an uncached missing id ends in 404 "Task with id <id> not found" |
| HttpOutcomes.UpdateMissingIsNotFound | src/main/java/com/emobile/springtodo/service/TaskServiceImpl.java:60 | Updating a missing id ends in 404, whatever the patch |
| HttpOutcomes.BlankTitleIsBadRequest | src/main/java/com/emobile/springtodo/util/TaskValidator.java:13-15 | A blank title on an existing task ends in 400 "Title cannot be blank" |
| HttpOutcomes.EmptyPatchIsBadRequest | src/main/java/com/emobile/springtodo/dao/TaskDaoImpl.java:122-124 | An all-absent patch on an existing task ends in 400 "No fields to update" |
| HttpOutcomes.BadPageIsBadRequest | src/main/java/com/emobile/springtodo/service/TaskServiceImpl.java:85-87 | In every reachable state bad page parameters end in 400 with the pagination message |
| HttpOutcomes.CreateViolationMap | src/main/java/com/emobile/springtodo/dto/CreateTaskDTO.java:16-23 | The field map built from a create request's violations names exactly its failing fields |
| HttpOutcomes.InvalidCreateIsBadRequest | src/main/java/com/emobile/springtodo/handler/GlobalExceptionHandler.java:28-36 | A create body failing its constraints ends in 400 "Validation failed" whose map names exactly the failing fields |

## Left out

- HTTP routing, status codes of successful calls and the OpenAPI annotations: framework plumbing; only the create body's `@Valid` check and the default page parameters are kept.
- Redis itself, the timing of the one-hour TTL and JSON serialisation: the regions are plain maps; an expiry is any removal of entries, which keeps the invariant (`ServiceInvariant.ExpiryPreservesInv`), but when entries expire is not modelled.
- `@Transactional` boundaries and concurrency: the model is sequential, and a failing operation never changes the table, so a rollback has nothing to undo.
- Wall-clock time: each clock reading is a parameter; the response timestamp of the error bodies is not modelled.
- Integer width: ids, offsets and limits are unbounded integers; Java's 64-bit `long` ids and 32-bit `int` page parameters overflow only far outside any reachable table.
- SQL text, `BeanPropertyRowMapper` reflection and logging: the table is an abstract map and a row reads back field for field, except that timestamps keep microsecond precision (`TaskStore.Stored`, rounding to the nearest microsecond as the PostgreSQL JDBC driver does). The table's schema is not part of this model; the columns are taken to be PostgreSQL `TIMESTAMP`s.
- The `update < 0` check after insert and the missing generated key in `save`: the identity column always yields a key, so neither branch can be taken.
- Null arguments (`task == null`, `id == null`, and the `taskById == null` check in `updateTask`): model values are never null, and the store's find never returns null.
- The stored `updated_at` never changes on update; the schema, and any trigger it might define, is not part of this model.
- TaskStore.FindPage: requires a non-negative offset and limit, because PostgreSQL rejects negative ones with an error the model does not name; the service checks them first.
- TaskStore.Save: requires both timestamps when title and status are present, because without them the insert fails with a NullPointerException whose message the model does not fix; the service always sets both.
- TaskStore.Save: requires `Valid(s)` on the insert path, so a table whose identity counter already names a stored row is not modelled; the identity column never hands out a taken id, every service operation keeps `Valid` (`ServiceInvariant.Inv`), and the duplicate-key failure such a table would raise is not modelled. `TaskService.CreateTask`, `TaskService.CreateRequest` and `ServiceProperties.CreateThenGet` carry the same condition.
- ExceptionHandler.HandleOutcomes: an invalid-format cause with an empty path, on which `extractErrorMessage` would itself fail, is not modelled; the first path element's field name is taken as given.
- The message of a `MethodArgumentNotValidException` is not modelled, since no handler reads it.
- Bean Validation machinery: only the resulting constraints on the create body are modelled; the update body has no constraints.
- The order in which the page query's rows come back: it is left to the database, so no property depends on it.

=== FILE: cache_key.dfy ===
/**
 The key of the "all-tasks" cache region. The service builds it as the text
 "pagination" + offset + ":" + limit; the model keys the region by the pair itself,
 which is sound because the text determines the pair.
 */
module CacheKey {

  import opened Optional
  import Decimal

  datatype PageKey = PageKey(offset: int, limit: int)

  const Prefix := "pagination"

  function KeyText(k: PageKey): string {
    Prefix + Decimal.IntText(k.offset) + ":" + Decimal.IntText(k.limit)
  }

  /** Position of the first `c` in `s`. */
  function IndexOf(s: string, c: char): (r: Option<nat>)
    ensures r.Some? ==> r.value < |s| && s[r.value] == c
    ensures r.Some? ==> forall j :: 0 <= j < r.value ==> s[j] != c
    ensures r.None? ==> forall j :: 0 <= j < |s| ==> s[j] != c
  {
    if |s| == 0 then None
    else if s[0] == c then Some(0)
    else match IndexOf(s[1..], c)
      case None => None
      case Some(i) => Some(i + 1)
  }

  /** A `c` with no `c` before it is the one `IndexOf` finds. */
  lemma IndexOfFindsFirst(s: string, c: char, i: nat)
    requires i < |s| && s[i] == c
    requires forall j :: 0 <= j < i ==> s[j] != c
    ensures IndexOf(s, c) == Some(i)
  {
  }

  /** Reads a key text back into the pair it was built from. */
  function ParseKey(s: string): Option<PageKey> {
    if |s| < |Prefix| || s[..|Prefix|] != Prefix then None
    else
      var rest := s[|Prefix|..];
      match IndexOf(rest, ':')
      case None => None
      case Some(i) =>
        match (Decimal.ParseInt(rest[..i]), Decimal.ParseInt(rest[i + 1..]))
        case (Some(o), Some(l)) => Some(PageKey(o, l))
        case _ => None
  }

  lemma KeyTextRoundTrip(k: PageKey)
    ensures ParseKey(KeyText(k)) == Some(k)
  {
    var o := Decimal.IntText(k.offset);
    var l := Decimal.IntText(k.limit);
    var s := KeyText(k);
    var rest := s[|Prefix|..];
    assert s[..|Prefix|] == Prefix;
    assert rest == o + ":" + l;
    Decimal.IntTextHasNoColon(k.offset);
    assert forall j :: 0 <= j < |o| ==> rest[j] == o[j];
    IndexOfFindsFirst(rest, ':', |o|);
    assert rest[..|o|] == o;
    assert rest[|o| + 1..] == l;
    Decimal.IntTextRoundTrip(k.offset);
    Decimal.IntTextRoundTrip(k.limit);
  }

  /** Distinct (offset, limit) pairs never share a cache entry, and equal pairs always do. */
  lemma KeyTextInjective(k1: PageKey, k2: PageKey)
    ensures KeyText(k1) == KeyText(k2) <==> k1 == k2
  {
    KeyTextRoundTrip(k1);
    KeyTextRoundTrip(k2);
  }
}

=== FILE: decimal.dfy ===
/**
 Decimal text of integers, as Java's string concatenation renders a `long`, and its inverse.
 The inverse exists only to prove that the rendering loses no information.
 */
module Decimal {

  import opened Optional

  predicate IsDigit(c: char) {
    '0' <= c <= '9'
  }

  predicate AllDigits(s: string) {
    forall i :: 0 <= i < |s| ==> IsDigit(s[i])
  }

  function DigitChar(d: nat): (c: char)
    requires d < 10
    ensures IsDigit(c)
  {
    (d + '0' as int) as char
  }

  function DigitValue(c: char): (d: nat)
    requires IsDigit(c)
    ensures d < 10
  {
    c as int - '0' as int
  }

  /** Digits of `n`, most significant first, without leading zeros. */
  function NatText(n: nat): (s: string)
    ensures 1 <= |s|
    ensures AllDigits(s)
    decreases n
  {
    if n < 10 then [DigitChar(n)] else NatText(n / 10) + [DigitChar(n % 10)]
  }

  /** `Long.toString`: a minus sign followed by the digits of the magnitude for negatives. */
  function IntText(n: int): string {
    if n < 0 then "-" + NatText(-n) else NatText(n)
  }

  function ParseNat(s: string): nat
    requires AllDigits(s)
    decreases |s|
  {
    if |s| == 0 then 0 else ParseNat(s[..|s| - 1]) * 10 + DigitValue(s[|s| - 1])
  }

  function ParseInt(s: string): Option<int> {
    if 1 < |s| && s[0] == '-' && AllDigits(s[1..]) then Some(0 - ParseNat(s[1..]))
    else if 0 < |s| && AllDigits(s) then Some(ParseNat(s))
    else None
  }

  lemma {:induction false} ParseNatText(n: nat)
    ensures ParseNat(NatText(n)) == n
    decreases n
  {
    var s := NatText(n);
    if n >= 10 {
      assert s[..|s| - 1] == NatText(n / 10);
      ParseNatText(n / 10);
    }
  }

  /** Parsing the rendered text gives the number back. */
  lemma IntTextRoundTrip(n: int)
    ensures ParseInt(IntText(n)) == Some(n)
  {
    var s := IntText(n);
    if n < 0 {
      var digits := NatText(-n);
      assert s == "-" + digits;
      assert s[0] == '-' && s[1..] == digits;
      ParseNatText(-n);
      assert ParseInt(s) == Some(0 - ParseNat(digits));
    } else {
      assert IsDigit(s[0]);
      ParseNatText(n);
      assert ParseInt(s) == Some(ParseNat(s));
    }
  }

  /** Two numbers render the same text exactly when they are equal. */
  lemma IntTextInjective(a: int, b: int)
    ensures IntText(a) == IntText(b) <==> a == b
  {
    IntTextRoundTrip(a);
    IntTextRoundTrip(b);
  }

  /** The rendering uses only digits and a leading minus sign, so never a colon. */
  lemma IntTextHasNoColon(n: int)
    ensures forall i :: 0 <= i < |IntText(n)| ==> IntText(n)[i] != ':'
  {
  }
}

=== FILE: exception_handler.dfy ===
/**
 `GlobalExceptionHandler`: which of the six `@ExceptionHandler` methods Spring picks for a
 thrown exception, and the status and message of the response it builds. Spring picks the
 handler declared for the nearest superclass of the thrown class (itself included), so the
 model carries the relevant part of the Java class hierarchy.
 */
module ExceptionHandler {

  import opened Optional
  import opened Failures

  datatype ExClass =
    | ExceptionClass                  // java.lang.Exception
    | RuntimeExceptionClass           // java.lang.RuntimeException
    | TaskNotFoundClass               // TaskNotFoundException extends RuntimeException
    | IllegalArgumentClass            // IllegalArgumentException extends RuntimeException
    | NestedRuntimeClass              // NestedRuntimeException extends RuntimeException
    | MessageConversionClass          // HttpMessageConversionException extends NestedRuntimeException
    | MessageNotReadableClass         // HttpMessageNotReadableException extends HttpMessageConversionException
    | BindClass                       // BindException extends Exception
    | ArgumentNotValidClass           // MethodArgumentNotValidException extends BindException
    | OtherCheckedClass               // any other checked exception

  function Parent(c: ExClass): ExClass
    requires c != ExceptionClass
  {
    match c
    case RuntimeExceptionClass => ExceptionClass
    case TaskNotFoundClass => RuntimeExceptionClass
    case IllegalArgumentClass => RuntimeExceptionClass
    case NestedRuntimeClass => RuntimeExceptionClass
    case MessageConversionClass => NestedRuntimeClass
    case MessageNotReadableClass => MessageConversionClass
    case BindClass => ExceptionClass
    case ArgumentNotValidClass => BindClass
    case OtherCheckedClass => ExceptionClass
  }

  /** Number of superclass steps from `c` up to `Exception`. */
  function Depth(c: ExClass): nat {
    match c
    case ExceptionClass => 0
    case RuntimeExceptionClass => 1
    case BindClass => 1
    case OtherCheckedClass => 1
    case TaskNotFoundClass => 2
    case IllegalArgumentClass => 2
    case NestedRuntimeClass => 2
    case ArgumentNotValidClass => 2
    case MessageConversionClass => 3
    case MessageNotReadableClass => 4
  }

  /** Superclass steps from `c` up to `a`, when `a` is `c` or one of its superclasses. */
  function Distance(c: ExClass, a: ExClass): Option<nat>
    decreases Depth(c)
  {
    if c == a then Some(0)
    else if c == ExceptionClass then None
    else match Distance(Parent(c), a)
      case None => None
      case Some(n) => Some(n + 1)
  }

  /** The six handler methods, in declaration order. */
  datatype Handler =
    | NotFoundHandler         // handleTaskNotFound
    | ValidationHandler       // handleValidationExceptions
    | IllegalArgumentHandler  // handleIllegalArgument
    | UnreadableHandler       // handleHttpMessageNotReadableException
    | RuntimeHandler          // handleRuntimeException
    | FallbackHandler         // handleException

  /** The class named in each handler's `@ExceptionHandler`. */
  function HandledClass(h: Handler): ExClass {
    match h
    case NotFoundHandler => TaskNotFoundClass
    case ValidationHandler => ArgumentNotValidClass
    case IllegalArgumentHandler => IllegalArgumentClass
    case UnreadableHandler => MessageNotReadableClass
    case RuntimeHandler => RuntimeExceptionClass
    case FallbackHandler => ExceptionClass
  }

  /** The handler declared for exactly `c`, if any. */
  function DeclaredFor(c: ExClass): (r: Option<Handler>)
    ensures r.Some? ==> HandledClass(r.value) == c
    ensures r.None? ==> forall h :: HandledClass(h) != c
  {
    match c
    case TaskNotFoundClass => Some(NotFoundHandler)
    case ArgumentNotValidClass => Some(ValidationHandler)
    case IllegalArgumentClass => Some(IllegalArgumentHandler)
    case MessageNotReadableClass => Some(UnreadableHandler)
    case RuntimeExceptionClass => Some(RuntimeHandler)
    case ExceptionClass => Some(FallbackHandler)
    case _ => None
  }

  /** The handler Spring invokes for an exception of class `c`: the first declared one met walking up. */
  function Resolve(c: ExClass): Handler
    decreases Depth(c)
  {
    match DeclaredFor(c)
    case Some(h) => h
    case None => Resolve(Parent(c))
  }

  /** The resolved handler covers `c`, and no handler covering `c` is declared for a nearer class. */
  lemma ResolveIsNearest(c: ExClass)
    ensures Distance(c, HandledClass(Resolve(c))).Some?
    ensures forall h :: Distance(c, HandledClass(h)).Some? ==>
      Distance(c, HandledClass(Resolve(c))).value <= Distance(c, HandledClass(h)).value
  {
  }

  /** The Java class of each failure value. */
  function ClassOf(f: Failure): ExClass {
    match f
    case TaskNotFound(_) => TaskNotFoundClass
    case IllegalArgument(_) => IllegalArgumentClass
    case ArgumentNotValid(_) => ArgumentNotValidClass
    case NotReadable(_, _) => MessageNotReadableClass
    case Runtime(_) => RuntimeExceptionClass
    case Checked(_) => OtherCheckedClass
  }

  /** `getMessage()` of the exceptions whose message a handler reads. */
  function MessageOf(f: Failure): string
    requires !f.ArgumentNotValid?
  {
    match f
    case TaskNotFound(m) => m
    case IllegalArgument(m) => m
    case NotReadable(m, _) => m
    case Runtime(m) => m
    case Checked(m) => m
  }

  const NotFoundStatus := 404
  const BadRequestStatus := 400
  const ServerErrorStatus := 500

  /** The response body: a message and, for field validation failures only, a field to message map. */
  datatype ErrorResponse = ErrorResponse(status: int, message: string, errors: Option<map<string, string>>)

  /** The map `handleValidationExceptions` fills: a later error for the same field overwrites an earlier one. */
  function FieldErrorMap(errs: seq<FieldError>): map<string, string>
    decreases |errs|
  {
    if |errs| == 0 then map[]
    else
      var last := errs[|errs| - 1];
      FieldErrorMap(errs[..|errs| - 1])[last.field := last.message]
  }

  /** Every reported field is a key, and every key is a reported field. */
  lemma {:induction false} FieldErrorMapKeys(errs: seq<FieldError>)
    ensures forall i :: 0 <= i < |errs| ==> errs[i].field in FieldErrorMap(errs)
    ensures forall k :: k in FieldErrorMap(errs) ==> exists i :: 0 <= i < |errs| && errs[i].field == k
    decreases |errs|
  {
    if |errs| > 0 {
      var init := errs[..|errs| - 1];
      FieldErrorMapKeys(init);
      assert forall i :: 0 <= i < |init| ==> init[i] == errs[i];
    }
  }

  /** A field's key holds the message of the last error reported for that field. */
  lemma {:induction false} FieldErrorMapLastWins(errs: seq<FieldError>, i: nat)
    requires i < |errs|
    requires forall j :: i < j < |errs| ==> errs[j].field != errs[i].field
    ensures errs[i].field in FieldErrorMap(errs)
    ensures FieldErrorMap(errs)[errs[i].field] == errs[i].message
    decreases |errs|
  {
    if i < |errs| - 1 {
      var init := errs[..|errs| - 1];
      assert init[i] == errs[i];
      FieldErrorMapLastWins(init, i);
    }
  }

  /** `extractErrorMessage`. */
  function ExtractErrorMessage(message: string, cause: Cause): string {
    match cause
    case InvalidFormat(field) => "Invalid value for field: " + field
    case OtherCause => message
  }

  /** The response for a failure that reaches the controller advice. */
  function Handle(f: Failure): ErrorResponse
  {
    match Resolve(ClassOf(f))
    case NotFoundHandler => ErrorResponse(NotFoundStatus, MessageOf(f), None)
    case ValidationHandler => ErrorResponse(BadRequestStatus, "Validation failed", Some(FieldErrorMap(f.fieldErrors)))
    case IllegalArgumentHandler => ErrorResponse(BadRequestStatus, MessageOf(f), None)
    case UnreadableHandler =>
      ErrorResponse(BadRequestStatus, "Invalid request body: " + ExtractErrorMessage(f.message, f.cause), None)
    case RuntimeHandler => ErrorResponse(ServerErrorStatus, "Internal server error: " + MessageOf(f), None)
    case FallbackHandler => ErrorResponse(ServerErrorStatus, "An unexpected error occurred", None)
  }

  /** The handler each kind of failure reaches. */
  lemma ResolvedHandlers()
    ensures Resolve(TaskNotFoundClass) == NotFoundHandler
    ensures Resolve(IllegalArgumentClass) == IllegalArgumentHandler
    ensures Resolve(ArgumentNotValidClass) == ValidationHandler
    ensures Resolve(MessageNotReadableClass) == UnreadableHandler
    ensures Resolve(RuntimeExceptionClass) == RuntimeHandler
    ensures Resolve(OtherCheckedClass) == FallbackHandler
  {
  }

  /** Status, message and field-error map of the response for each kind of failure. */
  lemma HandleOutcomes(f: Failure)
    ensures f.TaskNotFound? ==> Handle(f) == ErrorResponse(NotFoundStatus, f.message, None)
    ensures f.IllegalArgument? ==> Handle(f) == ErrorResponse(BadRequestStatus, f.message, None)
    ensures f.ArgumentNotValid? ==>
      Handle(f) == ErrorResponse(BadRequestStatus, "Validation failed", Some(FieldErrorMap(f.fieldErrors)))
    ensures f.NotReadable? && f.cause.InvalidFormat? ==>
      Handle(f) == ErrorResponse(BadRequestStatus, "Invalid request body: " + ("Invalid value for field: " + f.cause.firstField), None)
    ensures f.NotReadable? && f.cause.OtherCause? ==>
      Handle(f) == ErrorResponse(BadRequestStatus, "Invalid request body: " + f.message, None)
    ensures f.Runtime? ==> Handle(f) == ErrorResponse(ServerErrorStatus, "Internal server error: " + f.message, None)
    ensures f.Checked? ==> Handle(f) == ErrorResponse(ServerErrorStatus, "An unexpected error occurred", None)
    ensures Handle(f).errors.Some? <==> f.ArgumentNotValid?
  {
  }

  /**
   Not-found, illegal-argument and unreadable-body exceptions are all runtime exceptions,
   yet none of them reaches the generic runtime handler.
   */
  lemma SpecificHandlerWins()
    ensures Distance(TaskNotFoundClass, RuntimeExceptionClass) == Some(1)
    ensures Resolve(TaskNotFoundClass) == NotFoundHandler
    ensures Distance(IllegalArgumentClass, RuntimeExceptionClass) == Some(1)
    ensures Resolve(IllegalArgumentClass) == IllegalArgumentHandler
    ensures Distance(MessageNotReadableClass, RuntimeExceptionClass) == Some(3)
    ensures Resolve(MessageNotReadableClass) == UnreadableHandler
  {
  }
}

=== FILE: failures.dfy ===
/**
 The exceptions the service can raise, as data. Every Java `throw` of the core becomes an
 `Err` carrying one of these values; a normal return becomes `Ok`.
 */
module Failures {

  /** One field-level constraint violation reported by bean validation. */
  datatype FieldError = FieldError(field: string, message: string)

  /** The cause attached to an unreadable request body. */
  datatype Cause =
    | InvalidFormat(firstField: string)  // Jackson could not convert the value of a field
    | OtherCause                         // any other parse failure

  datatype Failure =
    | TaskNotFound(message: string)                  // TaskNotFoundException (unchecked)
    | IllegalArgument(message: string)               // IllegalArgumentException
    | ArgumentNotValid(fieldErrors: seq<FieldError>) // MethodArgumentNotValidException (checked)
    | NotReadable(message: string, cause: Cause)     // HttpMessageNotReadableException
    | Runtime(message: string)                       // a plain RuntimeException
    | Checked(message: string)                       // any other checked exception

  datatype Result<+T> = Ok(value: T) | Err(error: Failure)

  /** The state after an operation together with its outcome. */
  datatype Step<+S, +T> = Step(state: S, result: Result<T>)
}

=== FILE: http_outcomes.dfy ===
/** The error response a client receives for the service's failure paths. */
module HttpOutcomes {

  import opened Optional
  import opened Failures
  import opened Tasks
  import opened TaskStore
  import opened TaskService
  import opened ExceptionHandler
  import TaskValidator
  import Decimal
  import ServiceInvariant

  /** Deleting a missing id is a server error, not a not-found. */
  lemma DeleteMissingIsServerError(svc: Service, id: Id)
    requires id !in svc.store.rows
    ensures DeleteTask(svc, id).result.Err?
    ensures Handle(DeleteTask(svc, id).result.error) ==
      ErrorResponse(ServerErrorStatus, "Internal server error: " + ("Failed to delete task by id " + Decimal.IntText(id)), None)
  {
  }

  /** Reading a missing id that is not cached is a 404 naming the id. */
  lemma GetMissingIsNotFound(svc: Service, id: Id)
    requires id !in svc.tasks && id !in svc.store.rows
    ensures GetTaskById(svc, id).result.Err?
    ensures Handle(GetTaskById(svc, id).result.error) ==
      ErrorResponse(NotFoundStatus, "Task with id " + Decimal.IntText(id) + " not found", None)
  {
  }

  /** Updating a missing id is a 404, whatever the patch holds. */
  lemma UpdateMissingIsNotFound(svc: Service, d: UpdateTaskDto, id: Id, now: Timestamp)
    requires id !in svc.store.rows
    ensures UpdateTask(svc, d, id, now).result.Err?
    ensures Handle(UpdateTask(svc, d, id, now).result.error) ==
      ErrorResponse(NotFoundStatus, "Task with id " + Decimal.IntText(id) + " not found", None)
  {
  }

  /** A blank title on an existing task is a 400 with the validator's message. */
  lemma BlankTitleIsBadRequest(svc: Service, d: UpdateTaskDto, id: Id, now: Timestamp)
    requires id in svc.store.rows
    requires TaskValidator.PresentAndBlank(d.title)
    ensures UpdateTask(svc, d, id, now).result.Err?
    ensures Handle(UpdateTask(svc, d, id, now).result.error) ==
      ErrorResponse(BadRequestStatus, "Title cannot be blank", None)
  {
  }

  /** An all-absent patch on an existing task is a 400 from the store, not from the validator. */
  lemma EmptyPatchIsBadRequest(svc: Service, id: Id, now: Timestamp)
    requires id in svc.store.rows
    ensures UpdateTask(svc, UpdateTaskDto(None, None, None), id, now).result.Err?
    ensures Handle(UpdateTask(svc, UpdateTaskDto(None, None, None), id, now).result.error) ==
      ErrorResponse(BadRequestStatus, "No fields to update", None)
  {
  }

  /** Bad page parameters are a 400 in every state the service can reach. */
  lemma BadPageIsBadRequest(svc: Service, scan: seq<Id>, offset: int, limit: int)
    requires ServiceInvariant.Inv(svc)
    requires IsScanOrder(svc.store, scan)
    requires offset < 0 || limit <= 0
    ensures GetTasks(svc, scan, offset, limit).result.Err?
    ensures Handle(GetTasks(svc, scan, offset, limit).result.error) ==
      ErrorResponse(BadRequestStatus, InvalidPaginationMessage, None)
  {
  }

  /** The field-error map built from a create request's violations names exactly the failing fields. */
  lemma CreateViolationMap(d: CreateTaskDto)
    ensures var m := FieldErrorMap(CreateViolations(d));
      && ("title" in m <==> d.title.None? || |d.title.value| == 0)
      && ("status" in m <==> d.status.None?)
      && (forall k :: k in m ==> k == "title" || k == "status")
  {
    FieldErrorMapKeys(CreateViolations(d));
  }

  /** A create request failing bean validation is a 400 whose error map names exactly the failing fields. */
  lemma InvalidCreateIsBadRequest(svc: Service, d: CreateTaskDto, createdAt: Timestamp, updatedAt: Timestamp)
    requires !ValidCreate(d)
    ensures CreateRequest(svc, d, createdAt, updatedAt).result == Err(ArgumentNotValid(CreateViolations(d)))
    ensures
      var resp := Handle(ArgumentNotValid(CreateViolations(d)));
      && resp.status == BadRequestStatus
      && resp.message == "Validation failed"
      && resp.errors == Some(FieldErrorMap(CreateViolations(d)))
      && ("title" in resp.errors.value <==> d.title.None? || |d.title.value| == 0)
      && ("status" in resp.errors.value <==> d.status.None?)
      && (forall k :: k in resp.errors.value ==> k == "title" || k == "status")
  {
    HandleOutcomes(ArgumentNotValid(CreateViolations(d)));
    CreateViolationMap(d);
  }
}

=== FILE: optional.dfy ===
/** A value that may be absent: the model's stand-in for a Java reference that may be null. */
module Optional {

  datatype Option<+T> = None | Some(value: T)
}

=== FILE: service_invariant.dfy ===
/**
 What the two cache regions promise about the store, and proofs that every service
 operation keeps that promise. A full view in "tasks" is a plain copy of the row; the patch
 view an update caches carries only the fields the patch set, and promises only those.
 */
module ServiceInvariant {

  import opened Optional
  import opened Failures
  import opened Tasks
  import opened CacheKey
  import opened TaskStore
  import opened TaskService

  /** Each field the view carries equals the stored one; absent fields claim nothing. */
  predicate ViewAgrees(v: TaskDto, id: Id, row: Row) {
    && (v.id.None? || v.id == Some(id))
    && (v.title.None? || v.title == Some(row.title))
    && (v.description.None? || v.description == row.description)
    && (v.status.None? || v.status == Some(row.status))
    && (v.createdAt.None? || v.createdAt == Some(row.createdAt))
    && (v.updatedAt.None? || v.updatedAt == Some(row.updatedAt))
  }

  /**
   A cached view is current for the row: a full view, which carries an id, is exactly the
   row's view, and a patch view, which carries no id and no timestamps, agrees with the row
   on every field it carries.
   */
  predicate ViewCurrent(v: TaskDto, id: Id, row: Row) {
    && (v.id.Some? ==> v == ToDto(AsTask(id, row)))
    && (v.id.None? ==> v.createdAt.None? && v.updatedAt.None? && ViewAgrees(v, id, row))
  }

  /** Every "tasks" entry belongs to a stored row and is current for it. */
  predicate TasksCoherent(svc: Service) {
    forall id :: id in svc.tasks ==> id in svc.store.rows && ViewCurrent(svc.tasks[id], id, svc.store.rows[id])
  }

  /** `page` is what the page query returns on the current table under some scan order. */
  ghost predicate PageOfStore(store: Store, key: PageKey, page: seq<TaskDto>) {
    && ValidPage(key.offset, key.limit)
    && exists scan :: IsScanOrder(store, scan) && page == ToDtos(FindPage(store, scan, key.offset, key.limit))
  }

  /** Every "all-tasks" entry is a page of the current table: nothing stale is cached. */
  ghost predicate PagesCoherent(svc: Service) {
    forall k :: k in svc.pages ==> PageOfStore(svc.store, k, svc.pages[k])
  }

  ghost predicate Inv(svc: Service) {
    Valid(svc.store) && TasksCoherent(svc) && PagesCoherent(svc)
  }

  lemma InitialInv()
    ensures Inv(Initial)
  {
  }

  /** Entries expiring from either region, any of them at any time, keep the invariant. */
  lemma ExpiryPreservesInv(svc: Service, expiredIds: set<Id>, expiredKeys: set<PageKey>)
    requires Inv(svc)
    ensures Inv(svc.(tasks := svc.tasks - expiredIds, pages := svc.pages - expiredKeys))
  {
  }

  /** A service started with empty caches over any table the identity column could have built. */
  lemma ColdCacheInv(s: Store)
    requires Valid(s)
    ensures Inv(Service(s, map[], map[]))
  {
  }

  lemma CreatePreservesInv(svc: Service, d: CreateTaskDto, createdAt: Timestamp, updatedAt: Timestamp)
    requires Inv(svc)
    ensures Inv(CreateTask(svc, d, createdAt, updatedAt).state)
  {
  }

  lemma UpdatePreservesInv(svc: Service, d: UpdateTaskDto, id: Id, now: Timestamp)
    requires Inv(svc)
    ensures Inv(UpdateTask(svc, d, id, now).state)
  {
  }

  lemma GetTaskByIdPreservesInv(svc: Service, id: Id)
    requires Inv(svc)
    ensures Inv(GetTaskById(svc, id).state)
  {
  }

  lemma GetTasksPreservesInv(svc: Service, scan: seq<Id>, offset: int, limit: int)
    requires Inv(svc)
    requires IsScanOrder(svc.store, scan)
    ensures Inv(GetTasks(svc, scan, offset, limit).state)
  {
  }

  lemma DeletePreservesInv(svc: Service, id: Id)
    requires Inv(svc)
    ensures Inv(DeleteTask(svc, id).state)
  {
  }

  /**
   Under the invariant a bad page request always fails, cache or no cache: no bad key is
   ever cached, because a bad request throws before `@Cacheable` can store anything.
   */
  lemma BadPageAlwaysRejected(svc: Service, scan: seq<Id>, offset: int, limit: int)
    requires Inv(svc)
    requires IsScanOrder(svc.store, scan)
    requires !ValidPage(offset, limit)
    ensures GetTasks(svc, scan, offset, limit) == Step(svc, Err(IllegalArgument(InvalidPaginationMessage)))
  {
  }

  /** Under the invariant every page `getTasks` returns, cached or not, is a page of the current table. */
  lemma ListedPageIsCurrent(svc: Service, scan: seq<Id>, offset: int, limit: int)
    requires Inv(svc)
    requires IsScanOrder(svc.store, scan)
    ensures GetTasks(svc, scan, offset, limit).result.Ok? ==>
      PageOfStore(svc.store, PageKey(offset, limit), GetTasks(svc, scan, offset, limit).result.value)
  {
  }

  /**
   The invariant catches a skipped `@CachePut`: if an update that changes the row left
   "tasks" as it was, a full view cached before the update would now be stale, and the
   resulting state is not coherent.
   */
  lemma SkippedPutIncoherent(svc: Service, d: UpdateTaskDto, id: Id, now: Timestamp)
    requires Inv(svc) && id in svc.tasks && svc.tasks[id].id.Some?
    requires UpdateTask(svc, d, id, now).result.Ok?
    requires Patched(svc.store.rows[id], UpdateToEntity(d)) != svc.store.rows[id]
    ensures !TasksCoherent(UpdateTask(svc, d, id, now).state.(tasks := svc.tasks))
  {
  }

  /**
   Under the invariant a view `getTaskById` returns is never stale: it is the row's full
   current view, or a patch view that agrees with the row on every field it carries.
   */
  lemma ReadViewAgrees(svc: Service, id: Id)
    requires Inv(svc)
    ensures GetTaskById(svc, id).result.Ok? ==>
      && id in svc.store.rows
      && var v := GetTaskById(svc, id).result.value;
         && (v.id.Some? ==> v == ToDto(AsTask(id, svc.store.rows[id])))
         && (v.id.None? ==> v.createdAt.None? && v.updatedAt.None? && ViewAgrees(v, id, svc.store.rows[id]))
  {
  }
}

=== FILE: service_properties.dfy ===
/**
 Properties that relate several service calls: what a read sees after a write, what a
 cache hit does not depend on, and the two update quirks (the patch-shaped cached view and
 the dropped clock reading).
 */
module ServiceProperties {

  import opened Optional
  import opened Failures
  import opened Tasks
  import opened CacheKey
  import opened TaskStore
  import opened TaskService

  /**
   Reading a task right after creating it returns the view the create returned, except that
   both timestamps come back at the column's microsecond precision.
   */
  lemma CreateThenGet(svc: Service, d: CreateTaskDto, createdAt: Timestamp, updatedAt: Timestamp)
    requires ValidCreate(d) && Valid(svc.store)
    ensures
      var c := CreateTask(svc, d, createdAt, updatedAt);
      && c.result.Ok?
      && GetTaskById(c.state, svc.store.nextId).result == Ok(c.result.value.(createdAt := Some(Stored(createdAt)), updatedAt := Some(Stored(updatedAt))))
  {
  }

  /**
   After a successful update, reading the task returns the cached patch view: no id, no
   timestamps, and only the fields the patch carried.
   */
  lemma UpdateThenGetReturnsPatchView(svc: Service, d: UpdateTaskDto, id: Id, now: Timestamp)
    requires UpdateTask(svc, d, id, now).result.Ok?
    ensures GetTaskById(UpdateTask(svc, d, id, now).state, id).result ==
      Ok(TaskDto(None, d.title, d.description, None, None, d.status))
  {
  }

  /** The clock reading taken during an update has no effect on anything the update produces. */
  lemma UpdateIgnoresClock(svc: Service, d: UpdateTaskDto, id: Id, now1: Timestamp, now2: Timestamp)
    ensures UpdateTask(svc, d, id, now1) == UpdateTask(svc, d, id, now2)
  {
  }

  /** An update that sets only the status changes only the status column of that row. */
  lemma StatusOnlyUpdate(svc: Service, s: Status, id: Id, now: Timestamp)
    requires id in svc.store.rows
    ensures
      var r := UpdateTask(svc, UpdateTaskDto(None, None, Some(s)), id, now);
      && r.result.Ok?
      && r.state.store.rows == svc.store.rows[id := svc.store.rows[id].(status := s)]
  {
  }

  /** Two reads of one id with nothing in between return the same outcome, and the second changes nothing. */
  lemma GetTaskByIdTwice(svc: Service, id: Id)
    ensures
      var first := GetTaskById(svc, id);
      var second := GetTaskById(first.state, id);
      second.result == first.result && second.state == first.state
  {
  }

  /** A "tasks" hit is answered without reading the store: any other table gives the same answer. */
  lemma TaskHitIgnoresStore(svc: Service, id: Id, other: Store)
    requires id in svc.tasks
    ensures GetTaskById(svc.(store := other), id).result == GetTaskById(svc, id).result
  {
  }

  /** An "all-tasks" hit is answered without reading the store, whatever the table and scan order. */
  lemma PageHitIgnoresStore(svc: Service, scan: seq<Id>, other: Store, otherScan: seq<Id>, offset: int, limit: int)
    requires IsScanOrder(svc.store, scan) && IsScanOrder(other, otherScan)
    requires PageKey(offset, limit) in svc.pages
    ensures GetTasks(svc.(store := other), otherScan, offset, limit).result == GetTasks(svc, scan, offset, limit).result
  {
  }

  /** A bad page request that misses the cache fails the same way whatever the table holds. */
  lemma BadPageIgnoresStore(svc: Service, scan: seq<Id>, other: Store, otherScan: seq<Id>, offset: int, limit: int)
    requires IsScanOrder(svc.store, scan) && IsScanOrder(other, otherScan)
    requires PageKey(offset, limit) !in svc.pages && !ValidPage(offset, limit)
    ensures GetTasks(svc.(store := other), otherScan, offset, limit) == GetTasks(svc, scan, offset, limit).(state := svc.(store := other))
  {
  }

  /** After a successful delete the task can no longer be read: the cached view went with it. */
  lemma DeleteThenGet(svc: Service, id: Id)
    requires DeleteTask(svc, id).result.Ok?
    ensures GetTaskById(DeleteTask(svc, id).state, id).result == Err(TaskNotFound(NotFoundMessage(id)))
  {
  }

  /** The controller's default page, offset 0 and limit 10, always passes the parameter check. */
  lemma DefaultPageAccepted(svc: Service, scan: seq<Id>)
    requires IsScanOrder(svc.store, scan)
    ensures GetTasks(svc, scan, DefaultOffset, DefaultLimit).result.Ok?
    ensures |GetTasks(svc, scan, DefaultOffset, DefaultLimit).result.value| <= DefaultLimit
      || PageKey(DefaultOffset, DefaultLimit) in svc.pages
  {
  }

  /**
   A patch with every field absent passes the validator and is then refused by the store,
   so an existing task is left untouched.
   */
  lemma EmptyPatchRefusedByStore(svc: Service, id: Id, now: Timestamp)
    requires id in svc.store.rows
    ensures UpdateTask(svc, UpdateTaskDto(None, None, None), id, now) == Step(svc, Err(IllegalArgument(NoFieldsMessage)))
  {
  }
}

=== FILE: task_service.dfy ===
/**
 `TaskServiceImpl` with its cache annotations turned into explicit transitions.
 The service state is the store plus the two cache regions:
   - "tasks", keyed by task id;
   - "all-tasks", keyed by the (offset, limit) pair of a page request.
 Spring applies `@CachePut` and `@CacheEvict` only when the method returns normally, so every
 failing operation below leaves both regions as they were. Cached values are views, never
 null: the view types have no null value.
 */
module TaskService {

  import opened Optional
  import opened Failures
  import opened Tasks
  import opened CacheKey
  import opened TaskStore
  import TaskValidator

  datatype Service = Service(store: Store, tasks: map<Id, TaskDto>, pages: map<PageKey, seq<TaskDto>>)

  /** An empty table with both cache regions empty. */
  const Initial: Service := Service(TaskStore.Empty, map[], map[])

  const InvalidPaginationMessage := "Invalid pagination parameters: offset must be >= 0 and limit must be > 0"

  /** The page the controller asks for when the request names none. */
  const DefaultOffset := 0
  const DefaultLimit := 10

  predicate ValidPage(offset: int, limit: int) {
    0 <= offset && 0 < limit
  }

  /**
   `createTask`: stamps the two clock readings, saves, and on success evicts "tasks" at the
   new id and every "all-tasks" entry.
   */
  function CreateTask(svc: Service, d: CreateTaskDto, createdAt: Timestamp, updatedAt: Timestamp): (r: Step<Service, TaskDto>)
    requires d.title.Some? && d.status.Some? ==> Valid(svc.store)
    ensures r.result.Ok? <==> d.title.Some? && d.status.Some?
    ensures r.result.Err? ==> r == Step(svc, Err(IllegalArgument(InvalidTaskMessage)))
    ensures r.result.Ok? ==>
      r.result.value == TaskDto(Some(svc.store.nextId), d.title, d.description, Some(createdAt), Some(updatedAt), d.status)
    ensures r.result.Ok? ==> r.state.pages == map[]
    ensures r.result.Ok? ==> r.state.tasks == svc.tasks - {svc.store.nextId}
    ensures r.result.Ok? ==>
      FindById(r.state.store, svc.store.nextId) == Ok(Task(Some(svc.store.nextId), d.title, d.description, Some(Stored(createdAt)), Some(Stored(updatedAt)), d.status))
    ensures r.result.Ok? ==> r.state.store == Save(svc.store, CreateToEntity(d).(createdAt := Some(createdAt), updatedAt := Some(updatedAt))).state
  {
    var task := CreateToEntity(d).(createdAt := Some(createdAt), updatedAt := Some(updatedAt));
    var saved := Save(svc.store, task);
    match saved.result
    case Err(e) => Step(svc, Err(e))
    case Ok(t) =>
      var view := ToDto(t);
      Step(Service(saved.state, svc.tasks - {t.id.value}, map[]), Ok(view))
  }

  /**
   `updateTask`: checks the id exists, validates the patch, then writes it. On success the
   returned view, which is the mapped patch and not the merged row, is put into "tasks" at
   `id` and "all-tasks" is emptied. The clock reading `now` is stamped on the fetched task,
   which is then dropped, so it reaches neither the store nor the result.
   */
  function UpdateTask(svc: Service, d: UpdateTaskDto, id: Id, now: Timestamp): (r: Step<Service, TaskDto>)
    ensures id !in svc.store.rows ==> r == Step(svc, Err(TaskNotFound(NotFoundMessage(id))))
    ensures id in svc.store.rows && TaskValidator.Validate(d).Err? ==>
      r == Step(svc, Err(TaskValidator.Validate(d).error))
    ensures id in svc.store.rows && TaskValidator.Validate(d).Ok? && d == UpdateTaskDto(None, None, None) ==>
      r == Step(svc, Err(IllegalArgument(NoFieldsMessage)))
    ensures r.result.Ok? <==>
      id in svc.store.rows && TaskValidator.Validate(d).Ok? && d != UpdateTaskDto(None, None, None)
    ensures r.result.Err? ==> r.state == svc
    ensures r.result.Ok? ==> r.result.value == TaskDto(None, d.title, d.description, None, None, d.status)
    ensures r.result.Ok? ==> r.state.tasks == svc.tasks[id := r.result.value] && r.state.pages == map[]
    ensures r.result.Ok? ==> r.state.store == Update(svc.store, UpdateToEntity(d), id).state
    ensures r.result.Ok? ==>
      id in r.state.store.rows && r.state.store.rows[id].updatedAt == svc.store.rows[id].updatedAt
  {
    match FindById(svc.store, id)
    case Err(e) => Step(svc, Err(e))
    case Ok(fetched) =>
      match TaskValidator.Validate(d)
      case Err(e) => Step(svc, Err(e))
      case Ok(_) =>
        var stamped := fetched.(updatedAt := Some(now));  // never used again
        var written := Update(svc.store, UpdateToEntity(d), id);
        match written.result
        case Err(e) => Step(svc, Err(e))
        case Ok(t) =>
          var view := ToDto(t);
          Step(Service(written.state, svc.tasks[id := view], map[]), Ok(view))
  }

  /** `getTaskById`: cache-through on "tasks"; a not-found outcome is never cached. */
  function GetTaskById(svc: Service, id: Id): (r: Step<Service, TaskDto>)
    ensures id in svc.tasks ==> r == Step(svc, Ok(svc.tasks[id]))
    ensures id !in svc.tasks && id !in svc.store.rows ==> r == Step(svc, Err(TaskNotFound(NotFoundMessage(id))))
    ensures id !in svc.tasks && id in svc.store.rows ==>
      && r.result == Ok(ToDto(AsTask(id, svc.store.rows[id])))
      && r.state == svc.(tasks := svc.tasks[id := r.result.value])
  {
    if id in svc.tasks then Step(svc, Ok(svc.tasks[id]))
    else match FindById(svc.store, id)
      case Err(e) => Step(svc, Err(e))
      case Ok(t) =>
        var view := ToDto(t);
        Step(svc.(tasks := svc.tasks[id := view]), Ok(view))
  }

  /**
   `getTasks`: the cache is consulted before the method body runs, so a hit is returned
   without the parameter check; on a miss, bad parameters fail before the store is read,
   and good ones read a page under the database's current scan order `scan` and cache it.
   */
  function GetTasks(svc: Service, scan: seq<Id>, offset: int, limit: int): (r: Step<Service, seq<TaskDto>>)
    requires IsScanOrder(svc.store, scan)
    ensures PageKey(offset, limit) in svc.pages ==> r == Step(svc, Ok(svc.pages[PageKey(offset, limit)]))
    ensures PageKey(offset, limit) !in svc.pages && !ValidPage(offset, limit) ==>
      r == Step(svc, Err(IllegalArgument(InvalidPaginationMessage)))
    ensures PageKey(offset, limit) !in svc.pages && ValidPage(offset, limit) ==>
      && r.result.Ok?
      && |r.result.value| <= limit
      && r.result.value == ToDtos(FindPage(svc.store, scan, offset, limit))
      && r.state == svc.(pages := svc.pages[PageKey(offset, limit) := r.result.value])
  {
    var key := PageKey(offset, limit);
    if key in svc.pages then Step(svc, Ok(svc.pages[key]))
    else if !ValidPage(offset, limit) then Step(svc, Err(IllegalArgument(InvalidPaginationMessage)))
    else
      var views := ToDtos(FindPage(svc.store, scan, offset, limit));
      Step(svc.(pages := svc.pages[key := views]), Ok(views))
  }

  /** `deleteTask`: on success evicts "tasks" at `id` and every "all-tasks" entry. */
  function DeleteTask(svc: Service, id: Id): (r: Step<Service, ()>)
    ensures r.result.Ok? <==> id in svc.store.rows
    ensures r.result.Err? ==> r == Step(svc, Err(Runtime(DeleteFailedMessage(id))))
    ensures r.result.Ok? ==>
      && r.state.pages == map[]
      && r.state.tasks == svc.tasks - {id}
      && r.state.store == DeleteById(svc.store, id).state
  {
    var deleted := DeleteById(svc.store, id);
    match deleted.result
    case Err(e) => Step(svc, Err(e))
    case Ok(_) => Step(Service(deleted.state, svc.tasks - {id}, map[]), Ok(()))
  }

  /** The `@Valid` check the controller runs on a create request before calling the service. */
  function CreateRequest(svc: Service, d: CreateTaskDto, createdAt: Timestamp, updatedAt: Timestamp): (r: Step<Service, TaskDto>)
    requires ValidCreate(d) ==> Valid(svc.store)
    ensures !ValidCreate(d) ==> r == Step(svc, Err(ArgumentNotValid(CreateViolations(d))))
    ensures ValidCreate(d) ==> r == CreateTask(svc, d, createdAt, updatedAt)
    ensures ValidCreate(d) ==>
      && r.result == Ok(TaskDto(Some(svc.store.nextId), d.title, d.description, Some(createdAt), Some(updatedAt), d.status))
      && r.state.pages == map[]
      && r.state.store.rows.Keys == svc.store.rows.Keys + {svc.store.nextId}
  {
    if !ValidCreate(d) then Step(svc, Err(ArgumentNotValid(CreateViolations(d))))
    else CreateTask(svc, d, createdAt, updatedAt)
  }
}

=== FILE: task_store.dfy ===
/**
 The `tasks` table behind `TaskDaoImpl`: a finite map from id to row plus the identity
 counter that hands out ids. SQL text, row mapping and logging are not modelled; each
 statement becomes a pure transition that returns the new table and the outcome.
 */
module TaskStore {

  import opened Optional
  import opened Failures
  import opened Tasks
  import Decimal

  /** One stored row. `title` and `status` are never null once stored: `Save` refuses them. */
  datatype Row = Row(
    title: string,
    description: Option<string>,
    status: Status,
    createdAt: Timestamp,
    updatedAt: Timestamp)

  /** The table and the identity column's next value. */
  datatype Store = Store(rows: map<Id, Row>, nextId: Id)

  /** An empty table whose identity column starts at 1. */
  const Empty: Store := Store(map[], 1)

  /** Every stored id was issued by the counter, so the counter's value is still unused. */
  predicate Valid(s: Store) {
    1 <= s.nextId && forall id :: id in s.rows ==> 1 <= id < s.nextId
  }

  /**
   What a `TIMESTAMP` column keeps of a clock reading: the column has microsecond
   precision, and the driver rounds the nanoseconds to the nearest microsecond.
   */
  function Stored(t: Timestamp): Timestamp {
    (t + 500) / 1000 * 1000
  }

  /** A stored reading is a whole number of microseconds, at most half a microsecond away. */
  lemma StoredRounds(t: Timestamp)
    ensures Stored(t) % 1000 == 0
    ensures -500 < Stored(t) - t <= 500
    ensures Stored(Stored(t)) == Stored(t)
  {
  }

  /** The task as it reads back from the table: both timestamps at the column's precision. */
  function AsStored(t: Task): (r: Task)
    ensures r.(createdAt := t.createdAt, updatedAt := t.updatedAt) == t
    ensures t.createdAt.Some? ==> r.createdAt == Some(Stored(t.createdAt.value))
    ensures t.updatedAt.Some? ==> r.updatedAt == Some(Stored(t.updatedAt.value))
  {
    t.(createdAt := if t.createdAt.Some? then Some(Stored(t.createdAt.value)) else None,
       updatedAt := if t.updatedAt.Some? then Some(Stored(t.updatedAt.value)) else None)
  }

  /** The entity the row mapper builds from the row with key `id`. */
  function AsTask(id: Id, row: Row): Task {
    Task(Some(id), Some(row.title), row.description, Some(row.createdAt), Some(row.updatedAt), Some(row.status))
  }

  function NotFoundMessage(id: Id): string {
    "Task with id " + Decimal.IntText(id) + " not found"
  }

  function DeleteFailedMessage(id: Id): string {
    "Failed to delete task by id " + Decimal.IntText(id)
  }

  const InvalidTaskMessage := "Task data is invalid"
  const NoFieldsMessage := "No fields to update"

  function Min(a: int, b: int): int {
    if a <= b then a else b
  }

  /**
   The order in which the database happens to scan the table: every stored id exactly once.
   The page query has no ORDER BY, so the model never fixes this order.
   */
  predicate IsScanOrder(s: Store, scan: seq<Id>) {
    && (forall i, j :: 0 <= i < j < |scan| ==> scan[i] != scan[j])
    && (forall i :: 0 <= i < |scan| ==> scan[i] in s.rows)
    && (forall id :: id in s.rows ==> id in scan)
  }

  /** Every table has a scan order, so the page query can always run. */
  lemma {:induction false} ScanOrderExists(s: Store)
    ensures exists scan :: IsScanOrder(s, scan)
    decreases |s.rows|
  {
    if |s.rows| == 0 {
      assert IsScanOrder(s, []);
    } else {
      // A non-empty table has some stored id.
      if forall id :: id !in s.rows {
        assert false;
      }
      var k :| k in s.rows;
      var rest := s.(rows := s.rows - {k});
      assert |rest.rows| < |s.rows| by {
        assert rest.rows.Keys == s.rows.Keys - {k};
      }
      ScanOrderExists(rest);
      var scan :| IsScanOrder(rest, scan);
      assert IsScanOrder(s, scan + [k]);
    }
  }

  /** `findTasksWithPagination`: `select * from tasks limit ? offset ?`. */
  function FindPage(s: Store, scan: seq<Id>, offset: int, limit: int): (r: seq<Task>)
    requires IsScanOrder(s, scan)
    requires 0 <= offset && 0 <= limit
    ensures |r| <= limit
    ensures |r| == if |scan| <= offset then 0 else Min(limit, |scan| - offset)
    ensures forall i :: 0 <= i < |r| ==> r[i] == AsTask(scan[offset + i], s.rows[scan[offset + i]])
  {
    if |scan| <= offset then []
    else TasksOfWindow(s, scan[offset..][..Min(limit, |scan| - offset)])
  }

  /** The entities for the listed ids, in the listed order. */
  function TasksOfWindow(s: Store, ids: seq<Id>): (r: seq<Task>)
    requires forall i :: 0 <= i < |ids| ==> ids[i] in s.rows
    ensures |r| == |ids|
    ensures forall i :: 0 <= i < |ids| ==> r[i] == AsTask(ids[i], s.rows[ids[i]])
    decreases |ids|
  {
    if |ids| == 0 then [] else [AsTask(ids[0], s.rows[ids[0]])] + TasksOfWindow(s, ids[1..])
  }

  /** `findById`. */
  function FindById(s: Store, id: Id): (r: Result<Task>)
    ensures r.Ok? <==> id in s.rows
    ensures r.Ok? ==> r.value.id == Some(id) && r.value == AsTask(id, s.rows[id])
    ensures r.Err? ==> r.error == TaskNotFound(NotFoundMessage(id))
  {
    if id in s.rows then Ok(AsTask(id, s.rows[id])) else Err(TaskNotFound(NotFoundMessage(id)))
  }

  /**
   `save`: refuses a task without title or status; otherwise inserts one row under the
   counter's id and returns the input with that id filled in. The identity column never
   hands out a taken id, which the model expresses as `Valid(s)` on the insert path.
   */
  function Save(s: Store, t: Task): (r: Step<Store, Task>)
    // Without timestamps `save` fails inside the JDBC statement with a NullPointerException.
    requires t.title.Some? && t.status.Some? ==> Valid(s) && t.createdAt.Some? && t.updatedAt.Some?
    ensures r.result.Ok? <==> t.title.Some? && t.status.Some?
    ensures r.result.Err? ==> r == Step(s, Err(IllegalArgument(InvalidTaskMessage)))
    ensures r.result.Ok? ==> r.result.value == t.(id := Some(s.nextId))
    ensures r.result.Ok? ==> FindById(r.state, s.nextId) == Ok(AsStored(r.result.value))
    ensures r.result.Ok? ==> r.state.rows.Keys == s.rows.Keys + {s.nextId}
    ensures r.result.Ok? ==> s.nextId < r.state.nextId
    ensures r.result.Ok? ==>
      && s.nextId !in s.rows
      && |r.state.rows| == |s.rows| + 1
      && (forall id :: id in s.rows ==> FindById(r.state, id) == FindById(s, id))
    ensures Valid(s) ==> Valid(r.state)
  {
    if t.title.None? || t.status.None? then Step(s, Err(IllegalArgument(InvalidTaskMessage)))
    else
      var row := Row(t.title.value, t.description, t.status.value, Stored(t.createdAt.value), Stored(t.updatedAt.value));
      Step(Store(s.rows[s.nextId := row], s.nextId + 1), Ok(t.(id := Some(s.nextId))))
  }

  /** Whether the patch sets at least one column. */
  predicate HasUpdates(t: Task) {
    t.title.Some? || t.description.Some? || t.status.Some?
  }

  /** The row after the SET clause built from the patch's present fields. */
  function Patched(row: Row, t: Task): Row {
    Row(
      if t.title.Some? then t.title.value else row.title,
      if t.description.Some? then t.description else row.description,
      if t.status.Some? then t.status.value else row.status,
      row.createdAt,
      row.updatedAt)
  }

  /**
   `update`: a sparse patch of title, description and status on the row `id`. It returns the
   patch argument itself, not the merged row.
   */
  function Update(s: Store, t: Task, id: Id): (r: Step<Store, Task>)
    ensures !HasUpdates(t) ==> r == Step(s, Err(IllegalArgument(NoFieldsMessage)))
    ensures HasUpdates(t) && id !in s.rows ==> r == Step(s, Err(TaskNotFound(NotFoundMessage(id))))
    ensures r.result.Ok? <==> HasUpdates(t) && id in s.rows
    ensures r.result.Ok? ==> r.result.value == t
    ensures r.result.Ok? ==> r.state.nextId == s.nextId && r.state.rows.Keys == s.rows.Keys
    ensures r.result.Ok? ==>
      var before := s.rows[id];
      var after := r.state.rows[id];
      && after.title == (if t.title.Some? then t.title.value else before.title)
      && after.description == (if t.description.Some? then t.description else before.description)
      && after.status == (if t.status.Some? then t.status.value else before.status)
      && after.createdAt == before.createdAt
      && after.updatedAt == before.updatedAt
    ensures r.result.Ok? ==> forall other :: other != id ==> FindById(r.state, other) == FindById(s, other)
    ensures Valid(s) ==> Valid(r.state)
  {
    if !HasUpdates(t) then Step(s, Err(IllegalArgument(NoFieldsMessage)))
    else if id !in s.rows then Step(s, Err(TaskNotFound(NotFoundMessage(id))))
    else Step(s.(rows := s.rows[id := Patched(s.rows[id], t)]), Ok(t))
  }

  /** `deleteById`: removes the row `id`; any other number of deleted rows is a generic error. */
  function DeleteById(s: Store, id: Id): (r: Step<Store, ()>)
    ensures r.result.Ok? <==> id in s.rows
    ensures r.result.Err? ==> r == Step(s, Err(Runtime(DeleteFailedMessage(id))))
    ensures r.result.Ok? ==> r.state.rows.Keys == s.rows.Keys - {id} && r.state.nextId == s.nextId
    ensures r.result.Ok? ==> FindById(r.state, id).Err?
    ensures r.result.Ok? ==> forall other :: other != id ==> FindById(r.state, other) == FindById(s, other)
    ensures Valid(s) ==> Valid(r.state)
  {
    if id in s.rows then Step(s.(rows := s.rows - {id}), Ok(())) else Step(s, Err(Runtime(DeleteFailedMessage(id))))
  }

  /** Two consecutive pages read under one scan order make up the page that spans both. */
  lemma PagesConcatenate(s: Store, scan: seq<Id>, offset: int, a: int, b: int)
    requires IsScanOrder(s, scan)
    requires 0 <= offset && 0 <= a && 0 <= b
    ensures FindPage(s, scan, offset, a) + FindPage(s, scan, offset + a, b) == FindPage(s, scan, offset, a + b)
  {
    var p := FindPage(s, scan, offset, a);
    var q := FindPage(s, scan, offset + a, b);
    var w := FindPage(s, scan, offset, a + b);
    assert |p + q| == |w|;
    forall i | 0 <= i < |w|
      ensures (p + q)[i] == w[i]
    {
      if i >= |p| {
        assert (p + q)[i] == q[i - |p|];
      }
    }
  }

  /** A page starting at 0 that is at least as long as the table lists every stored task. */
  lemma FullPageListsEveryRow(s: Store, scan: seq<Id>, limit: int)
    requires IsScanOrder(s, scan)
    requires |s.rows| <= limit
    ensures forall id :: id in s.rows ==> AsTask(id, s.rows[id]) in FindPage(s, scan, 0, limit)
  {
    ScanCoversTable(s, scan);
    var p := FindPage(s, scan, 0, limit);
    forall id | id in s.rows
      ensures AsTask(id, s.rows[id]) in p
    {
      var i :| 0 <= i < |scan| && scan[i] == id;
      assert p[i] == AsTask(id, s.rows[id]);
    }
  }

  /** A scan order is exactly as long as the table. */
  lemma ScanCoversTable(s: Store, scan: seq<Id>)
    requires IsScanOrder(s, scan)
    ensures |scan| == |s.rows|
  {
    var ids := set i | 0 <= i < |scan| :: scan[i];
    forall id | id in s.rows
      ensures id in ids
    {
      var i :| 0 <= i < |scan| && scan[i] == id;
    }
    assert ids == s.rows.Keys;
    DistinctSeqCardinality(scan);
  }

  lemma {:induction false} DistinctSeqCardinality(xs: seq<Id>)
    requires forall i, j :: 0 <= i < j < |xs| ==> xs[i] != xs[j]
    ensures |set i | 0 <= i < |xs| :: xs[i]| == |xs|
    decreases |xs|
  {
    if |xs| > 0 {
      var rest := xs[..|xs| - 1];
      DistinctSeqCardinality(rest);
      var last := xs[|xs| - 1];
      assert (set i | 0 <= i < |xs| :: xs[i]) == (set i | 0 <= i < |rest| :: rest[i]) + {last};
      assert last !in (set i | 0 <= i < |rest| :: rest[i]);
    }
  }
}

=== FILE: task_validator.dfy ===
/**
 `TaskValidator`: the checks an update request must pass before it reaches the store.
 Checks run in the order title, description, status, and the first failure is the one reported.
 */
module TaskValidator {

  import opened Optional
  import opened Failures
  import opened Tasks

  /**
   `Character.isWhitespace`: the Unicode space, line and paragraph separators other than the
   non-breaking spaces U+00A0, U+2007 and U+202F, plus the controls U+0009..U+000D and U+001C..U+001F.
   */
  predicate IsWhitespace(c: char) {
    var n := c as int;
    || n == 0x20 || n == 0x1680 || (0x2000 <= n <= 0x200A && n != 0x2007)
    || n == 0x205F || n == 0x3000 || n == 0x2028 || n == 0x2029
    || 0x09 <= n <= 0x0D || 0x1C <= n <= 0x1F
  }

  /** Position of the first non-whitespace character, or the length when there is none. */
  function IndexOfNonWhitespace(s: string): (k: nat)
    ensures k <= |s|
    ensures forall i :: 0 <= i < k ==> IsWhitespace(s[i])
    ensures k < |s| ==> !IsWhitespace(s[k])
    decreases |s|
  {
    if |s| == 0 || !IsWhitespace(s[0]) then 0 else 1 + IndexOfNonWhitespace(s[1..])
  }

  /** `String.isBlank`: no non-whitespace character is found. */
  predicate IsBlank(s: string) {
    IndexOfNonWhitespace(s) == |s|
  }

  /** Blank means empty or made of whitespace only. */
  lemma BlankMeansAllWhitespace(s: string)
    ensures IsBlank(s) <==> forall i :: 0 <= i < |s| ==> IsWhitespace(s[i])
  {
  }

  const TitleBlankMessage := "Title cannot be blank"
  const DescriptionBlankMessage := "Description cannot be blank"

  predicate PresentAndBlank(f: Option<string>) {
    f.Some? && IsBlank(f.value)
  }

  /** `validateUpdateTaskDto`. */
  function Validate(d: UpdateTaskDto): (r: Result<()>)
    ensures r.Ok? <==> !PresentAndBlank(d.title) && !PresentAndBlank(d.description)
    ensures PresentAndBlank(d.title) ==> r == Err(IllegalArgument(TitleBlankMessage))
    ensures !PresentAndBlank(d.title) && PresentAndBlank(d.description) ==>
      r == Err(IllegalArgument(DescriptionBlankMessage))
  {
    if PresentAndBlank(d.title) then Err(IllegalArgument(TitleBlankMessage))
    else if PresentAndBlank(d.description) then Err(IllegalArgument(DescriptionBlankMessage))
    else match d.status
      case Some(st) =>
        if st in AllStatuses then Ok(()) else Err(IllegalArgument("Invalid status value: " + StatusName(st)))
      case None => Ok(())
  }

  /** A patch with every field absent passes validation. */
  lemma AcceptsEmptyPatch()
    ensures Validate(UpdateTaskDto(None, None, None)) == Ok(())
  {
  }

  /** The status check never fails: every status value is one of `Status.values()`. */
  lemma StatusNeverRejected(d: UpdateTaskDto, s: Status)
    ensures Validate(d.(status := Some(s))) == Validate(d.(status := None))
  {
  }

  /** A whitespace-only title is rejected, not only the empty one. */
  lemma WhitespaceTitleRejected(d: UpdateTaskDto)
    requires d.title.Some? && forall i :: 0 <= i < |d.title.value| ==> IsWhitespace(d.title.value[i])
    ensures Validate(d) == Err(IllegalArgument(TitleBlankMessage))
  {
    BlankMeansAllWhitespace(d.title.value);
  }
}

=== FILE: tasks.dfy ===
/**
 The task entity, the three request/response shapes built from it, and the field-for-field
 mappings between them. Every field of the Java classes may be null, so every field here is
 an `Option`.
 */
module Tasks {

  import opened Optional
  import opened Failures

  type Id = int

  /** A clock reading (`LocalDateTime`), counted in nanoseconds from the epoch. */
  type Timestamp = int

  datatype Status = Pending | InProgress | Completed

  /** `Status.values()`. */
  const AllStatuses: seq<Status> := [Pending, InProgress, Completed]

  /** `Status.name()`, the text stored in the `status` column. */
  function StatusName(s: Status): string {
    match s
    case Pending => "PENDING"
    case InProgress => "IN_PROGRESS"
    case Completed => "COMPLETED"
  }

  /** `Status.valueOf`, used when a row is read back into an entity. */
  function StatusOf(name: string): (r: Option<Status>)
    ensures r.Some? ==> StatusName(r.value) == name
  {
    if name == "PENDING" then Some(Pending)
    else if name == "IN_PROGRESS" then Some(InProgress)
    else if name == "COMPLETED" then Some(Completed)
    else None
  }

  /** Writing a status to its column and reading it back gives the same status. */
  lemma StatusColumnRoundTrip(s: Status)
    ensures StatusOf(StatusName(s)) == Some(s)
    ensures s in AllStatuses
  {
  }

  datatype Task = Task(
    id: Option<Id>,
    title: Option<string>,
    description: Option<string>,
    createdAt: Option<Timestamp>,
    updatedAt: Option<Timestamp>,
    status: Option<Status>)

  /** Body of a create request. */
  datatype CreateTaskDto = CreateTaskDto(title: Option<string>, description: Option<string>, status: Option<Status>)

  /** Body of an update request: each present field is a field to overwrite. */
  datatype UpdateTaskDto = UpdateTaskDto(title: Option<string>, description: Option<string>, status: Option<Status>)

  /** The view returned to clients and stored in the caches. */
  datatype TaskDto = TaskDto(
    id: Option<Id>,
    title: Option<string>,
    description: Option<string>,
    createdAt: Option<Timestamp>,
    updatedAt: Option<Timestamp>,
    status: Option<Status>)

  function CreateToEntity(d: CreateTaskDto): Task {
    Task(None, d.title, d.description, None, None, d.status)
  }

  function UpdateToEntity(d: UpdateTaskDto): Task {
    Task(None, d.title, d.description, None, None, d.status)
  }

  function ToDto(t: Task): TaskDto {
    TaskDto(t.id, t.title, t.description, t.createdAt, t.updatedAt, t.status)
  }

  function ToDtos(ts: seq<Task>): (r: seq<TaskDto>)
    ensures |r| == |ts|
    ensures forall i :: 0 <= i < |ts| ==> r[i] == ToDto(ts[i])
  {
    if |ts| == 0 then [] else [ToDto(ts[0])] + ToDtos(ts[1..])
  }

  const TitleEmptyMessage := "Title should not be empty"
  const StatusMissingMessage := "Status should not be empty. Accessible: PENDING, IN_PROGRESS, COMPLETED"

  /** The constraints on a create request: a non-empty title and a status. */
  predicate ValidCreate(d: CreateTaskDto) {
    d.title.Some? && |d.title.value| > 0 && d.status.Some?
  }

  /** The field errors bean validation reports for a create request. */
  function CreateViolations(d: CreateTaskDto): (r: seq<FieldError>)
    ensures r == [] <==> ValidCreate(d)
    ensures forall i :: 0 <= i < |r| ==> r[i].field in {"title", "status"}
    ensures (d.title.None? || |d.title.value| == 0) <==> FieldError("title", TitleEmptyMessage) in r
    ensures d.status.None? <==> FieldError("status", StatusMissingMessage) in r
  {
    (if d.title.None? || |d.title.value| == 0 then [FieldError("title", TitleEmptyMessage)] else [])
    + (if d.status.None? then [FieldError("status", StatusMissingMessage)] else [])
  }
}
